=== FILE: README.md ===
# Subscription lifecycle of the VPN-selling Telegram bot, in Dafny

This project models the core of a Telegram bot that sells 30-day VPN access.
A user asks for `/buy` or `/renew`. The bot opens a payment with a mock
gateway and remembers the payment id in the user's FSM state. When the user
writes again and the gateway reports `completed`, the bot creates or extends
the user's row in the `users` table. It then issues a VLESS client in the v2ray
configuration and sends the client config file. A sweep, `check_subscriptions`, is meant
to revoke clients whose paid period has ended; `main` never schedules it.

The model keeps the system's four pieces of state, each as a class with one
field that its methods update in place:

- `Db.UserTable.rows` is the sqlite `users` table, as a map from `user_id` to
  `UserRecord`. `Valid()` is the primary-key constraint.
- `Vpn.Directory.clients` is the list `inbounds[0].settings.clients` of the
  v2ray JSON document.
- `Gateway.MockGateway.payments` is the module-level `_mock_payments`
  dictionary.
- `Bot.FsmStorage.slots` is the FSM, kept per user: whether the user is waiting for
  a payment, plus the `payment_id` and `amount` in its data.

Each state-changing method is specified by a pure function on values, such as
`Db.Inserted`, `Vpn.AfterCreate`, `Gateway.Opened` or `Bot.AfterCompletion`.
The lemmas state the properties of those functions. Clock readings are integer
seconds passed in as parameters, and so are the UUIDs that `uuid.uuid4()`
would draw. Each handler is one atomic step.

Files: `wrappers.dfy` (Option, Result), `text.dfy` (decimal rendering of
`user_id`), `database.dfy`, `vpn_manager.dfy`, `paypalych_api.dfy`, `bot.dfy`.
`Bot.PurchaseThenExpiryScenario` walks through one purchase and the sweeps a
month later using only the contracts.

The model keeps these behaviours of the code as written:

- A renewal adds 30 days to the stored `end_date`, even when that date is
  already in the past (bot/bot.py:163-165).
- Every issue appends a new client. The only duplicate check compares the
  freshly drawn UUID, never the user's label (vpn/vpn_manager.py:90-94).
- `create_user` is `INSERT OR REPLACE`, so it replaces the whole row
  (db/database.py:67).
- Clearing the user's FSM state after delivery is the only guard against
  confirming one payment twice (bot/bot.py:184).
- The sweep lists only the active rows (db/database.py:93). See Findings.

## Model

| member | source | states |
|---|---|---|
| `Db.GetUserByPrimaryKey` | db/database.py:39-56 | with the primary key, `get_user` returns None exactly when no row has that `user_id`, and a found row carries that `user_id` |
| `Db.InsertedReplacesRow` | db/database.py:58-70 | `create_user` keeps one row per key and replaces the whole row: start date and `created_at` are now, `end_date` is the given one, `v2ray_id` is NULL; other rows are unchanged |
| `Db.WithEndDateOnlyEndDate` | db/database.py:72-82 | `update_subscription` changes only `end_date` of an existing row, and changes nothing for an absent user |
| `Db.WithV2rayIdRoundTrip` | db/database.py:109-132 | `save_user_v2ray_id` changes only `v2ray_id` and is a no-op for an absent user; `get_user_v2ray_id` then returns the saved id, or None for an absent user |
| `Db.UserTable.constructor` | db/database.py:19-37 | `init_db` on a fresh database gives an empty table that satisfies the key constraint |
| `Db.UserTable.CreateUser` | db/database.py:58-70 | the table becomes `Inserted(old, u, end, now)` and keeps the key constraint |
| `Db.UserTable.UpdateSubscription` | db/database.py:72-82 | the table becomes `WithEndDate(old, u, d)` |
| `Db.UserTable.SaveUserV2rayId` | db/database.py:109-119 | the table becomes `WithV2rayId(old, u, x)` |
| `Db.UserTable.GetActiveUsers` | db/database.py:84-107 | the result holds exactly the rows whose `end_date` is set and later than now, each user once |
| `Db.UserTable.Select` | db/database.py:98-106 | the loop collects exactly the rows the filter keeps, each user once, in no fixed order |
| `Db.UserTable.GetSubscribedUsers` | db/database.py:93 | corrected listing for the sweep: exactly the rows whose `end_date` is set, each user once |
| `Vpn.EmailInjective` | vpn/vpn_manager.py:86 | the label `user_{id}@vpn.example.com` differs between different users |
| `Vpn.AfterCreateAppendsOne` | vpn/vpn_manager.py:75-94 | with an unused UUID, exactly one client is appended: that UUID as id, flow `xtls-rprx-vision`, level 0, the user's label; earlier clients keep their values and order |
| `Vpn.AfterCreateNoDedupByUser` | vpn/vpn_manager.py:89-94 | the duplicate check looks only at the fresh UUID, so the user's client count grows by one even if clients already exist, and other users' counts do not change |
| `Vpn.WithoutIdMembers` | vpn/vpn_manager.py:128-130 | the comprehension keeps exactly the clients whose id differs from the removed one |
| `Vpn.WithoutIdAppend` | vpn/vpn_manager.py:129 | the filter works piece by piece, so the kept clients stay in their original relative order |
| `Vpn.WithoutIdAbsent` | vpn/vpn_manager.py:129 | filtering an id that no client has leaves the list unchanged |
| `Vpn.WithoutIdIdempotent` | vpn/vpn_manager.py:128-130 | after the filter no client has the id, and a second filter is a no-op |
| `Vpn.AfterRemoveRevokes` | vpn/vpn_manager.py:111-130 | `remove_v2ray_user` with no stored UUID, or an empty one, leaves the list alone; with one, it removes every client with that id, keeps all others, and repeating it changes nothing |
| `Vpn.StoredUuid` | vpn/vpn_manager.py:147-156 | the shared guard fails with "user not found" exactly when the row is missing, and otherwise succeeds exactly when a non-empty UUID is stored; a present row without one fails with "UUID not found" |
| `Vpn.GenerateV2rayConfig` | vpn/vpn_manager.py:143-185 | fails exactly when the guard fails, with the same error; otherwise `id` is the stored UUID, `add` is the server IP, `port` is "443", and the path is `configs/user_{id}_config.json` |
| `Vpn.VlessUrl` | vpn/vpn_manager.py:195-207 | fails exactly when the guard fails; otherwise gives `vless://{uuid}@{ip}:443?security=tls&type=tcp#VPN-User-{id}` |
| `Vpn.VlessUrlMatchesConfig` | vpn/vpn_manager.py:159-172 | the URL and the config file succeed or fail together with the same error, and the URL names the config's UUID, address, port, security and network |
| `Vpn.Directory.constructor` | vpn/vpn_manager.py:21-27 | the template document has no clients |
| `Vpn.Directory.CreateV2rayUser` | vpn/vpn_manager.py:69-102 | the list becomes `AfterCreate(old, u, uuid)`, and the user's stored `v2ray_id` is overwritten with the new UUID |
| `Vpn.Directory.RemoveV2rayUser` | vpn/vpn_manager.py:111-134 | the list becomes `AfterRemove(old, rows, u)`, and the table is not touched, so the stored UUID stays |
| `Gateway.OpenedIsPending` | bot/paypalych_api.py:14-65 | a new payment reads back as "pending", and every other payment is unchanged |
| `Gateway.WithStatusRoundTrip` | bot/paypalych_api.py:41-76 | setting a status reads back for a known id; an unknown id stays "unknown" and the map is unchanged; the updated entry equals the old one with only its status replaced, and every other entry is unchanged |
| `Gateway.MockGateway.constructor` | bot/paypalych_api.py:12 | the dictionary starts empty |
| `Gateway.MockGateway.CreatePaymentLink` | bot/paypalych_api.py:14-39 | stores `{pending, user_id, amount, currency}` under the new id, and returns that id with the URL `https://example.com/mock-payment/{id}` |
| `Gateway.MockGateway.SetMockPaymentStatus` | bot/paypalych_api.py:68-76 | the dictionary becomes `WithStatus(old, id, status)` |
| `Gateway.PollPaymentStatus` | bot/paypalych_api.py:79-88 | makes at most `max(0, max_attempts)` checks and returns the first final status seen (completed, failed or cancelled); anything else keeps polling; returns "timeout" after `max_attempts` non-final checks, or at once when `max_attempts <= 0`; the default of 10 is `Gateway.DefaultMaxAttempts` |
| `Bot.FsmStorage.constructor` | bot/bot.py:32 | no user has state or data |
| `Bot.FsmStorage.WaitForPayment` | bot/bot.py:77-81 | only this user's slot changes: it now waits for payment and holds the payment id and amount |
| `Bot.FsmStorage.Clear` | bot/bot.py:184 | only this user's slot changes: it loses its state and its data |
| `Bot.GuardsMatchTable` | bot/bot.py:49-53 | `/buy` is refused exactly for a user that `get_active_users` would list at that instant; `/renew` (bot/bot.py:110-114) is refused exactly when there is no row, so an active user may still renew |
| `Bot.CompletionRecord` | bot/bot.py:157-174 | on "completed", the row exists afterwards. Its `end_date` is the stored end date plus 30 days, or now plus 30 days when none is stored. A new user gets a new row with start date now. The new UUID is stored, and other rows are untouched |
| `Bot.RenewalAddsToStoredEnd` | bot/bot.py:161-168 | renewal adds to the stored end date, not to now: a user who lapsed more than 30 days ago is still inactive after paying, and an active user gains exactly 30 days |
| `Bot.CompletionDeliversConfig` | bot/bot.py:173-177 | after a completed payment with a non-empty UUID, `generate_v2ray_config` succeeds with that UUID, and the directory lists a client with that UUID; for a UUID not yet listed, the appended client carries the user's label |
| `Bot.RenewalOrphansPreviousClient` | bot/bot.py:160-174 | a renewing user's previous client stays in the directory. The user's client count grows by one, and a later revocation of the user removes every client with the new UUID but never the old client |
| `Bot.CmdStatus` | bot/bot.py:85-105 | `/status` says "not registered" exactly when there is no row, "no subscription" exactly when `end_date` is NULL, "active" exactly when the first clock reading is before `end_date`, and "expired" otherwise |
| `Bot.RemainingTimeSplit` | bot/bot.py:94-101 | in the `/status` reply, hours = (remaining mod 1 day) div 3600 < 24 and minutes < 60; days, hours and minutes give the remaining time rounded down to the minute; with one clock reading the day count is not negative |
| `Bot.OfferPayment` | bot/bot.py:55-83 | opens a pending payment for 5.0 USD, puts the chat in `waiting_for_payment` with that payment id, and replies with the payment URL |
| `Bot.CmdBuy` | bot/bot.py:46-83 | an active user is refused and no payment or FSM state changes; otherwise a payment is opened and the chat waits for it |
| `Bot.CmdRenew` | bot/bot.py:107-144 | a user with no row is refused and no payment or FSM state changes; otherwise a payment is opened and the chat waits for it, whether or not the user is active |
| `Bot.HandlePaymentCheck` | bot/bot.py:146-188 | without a waiting chat, a payment id or a "completed" status, nothing changes. On "completed" the row is updated first, then a client is issued, then the config is built, and the FSM is cleared last. The FSM is cleared only if the config was built |
| `Bot.RevokeExpired` | bot/bot.py:193-210 | the per-user loop ends in the state `Sweep` gives. Per user whose listed end date has passed: revoke the client, then null `end_date`, then notify; a failed notice is logged and the loop goes on |
| `Bot.CheckSubscriptions` | bot/bot.py:190-210 | it sweeps exactly the rows that were active when listed, and ends in the state `Sweep` gives |
| `Bot.SweepIdleOnActiveListing` | bot/bot.py:192-196 | as written, the sweep changes nothing unless the clock moves past the listing time during the loop, so an expired user keeps the client and the end date |
| `Bot.SweepTouchesOnlyListed` | bot/bot.py:193-201 | rows of users that were not listed are not changed by the sweep |
| `Bot.SweepSparesNotDue` | bot/bot.py:193-201 | a user whose every listed entry is handled at a clock reading before its end date keeps the row unchanged |
| `Bot.SweepKeepsOtherClients` | bot/bot.py:193-198 | a client stays unless a step that fires (the entry due at its clock reading) revokes a user whose stored UUID is that client's id |
| `Bot.SweepMonotone` | bot/bot.py:193-201 | the sweep keeps the set of rows and every stored UUID, never sets an end date, and never brings back a client id |
| `Bot.SweepConverges` | bot/bot.py:193-201 | for every listed user whose end date is at or before now, one pass nulls the end date and removes every client with the user's stored UUID |
| `Bot.CheckSubscriptionsCorrected` | bot/bot.py:190-210 | fed every row whose `end_date` is set, the sweep leaves no user with an end date at or before now holding an end date or a client with the stored UUID, and a user whose end date lies after every clock reading keeps the row unchanged, and a client whose id is the stored UUID of no user due at some clock reading stays in the directory (no early revocation); the listing is every row with an end date, and rows, clients and notices end in the state `Sweep` gives |

## Left out

- The aiogram layer is not modelled: sending messages, inline keyboards, `answer_document`, the `Bot`/`Dispatcher` setup and `/start` (bot/bot.py:31-44). Replies are returned as values.
- `Bot.FsmStorage`: one slot per user. aiogram keys the state by chat and user, so a user waiting for payments in two chats at once is not modelled. Two such payments, once completed, would each extend the row by 30 days and each add a client.
- `Bot.HandlePaymentCheck` covers a non-command message in a waiting chat. The dispatcher's priority of command handlers over the state filter is not modelled.
- bot/handlers.py, run.py and setup.py: static help text, an admin check, the entry point and packaging. None of it holds subscription state.
- `systemctl restart v2ray` calls are no-ops: their failures are caught and printed, and they never touch data.
- File and database I/O are not modelled: JSON reads and writes of the v2ray document, the config file write, and sqlite connections. An exception from them would abort the running handler, and the model does not include that path.
- Only `inbounds[0].settings.clients` of the v2ray document is modelled. The code reads and writes nothing else in the document.
- `initialize_v2ray_server` is not modelled: directory and template file creation, and the first restart.
- The QR image rendering and saving in `generate_v2ray_qr` are not modelled. Only its URL is.
- `uuid.uuid4()` and `datetime.now()` are not modelled. UUIDs and payment ids are parameters, with no freshness requirement except in the lemmas that need one. Times are integer seconds. The code's ISO strings and sqlite's UTC `CURRENT_TIMESTAMP` for `created_at` both become the same integer clock.
- The price 5.00 is a `real`, since it is only stored. The gateway ignores the description.
- The `asyncio.sleep(10)` backoff in the poll is not modelled. `observe(i)` stands for whatever the i-th status check returns.
- Logging, `print` and dotenv are not modelled.
- Async handlers do not interleave: each handler is one atomic step. Per-payment idempotency, locking and credential dedup are absent from the code, so the model does not add them.
- The "error creating payment" branches of `/buy` and `/renew` (bot/bot.py:82-83, 143-144) are not modelled. The mock gateway always returns a link, so these branches cannot run.
- `Bot.CheckSubscriptions`: the loop uses each listed row's snapshot `end_date`, as the code does. Revoking the client can raise on file I/O, and the model does not include that abort.

## Findings

| source | as written | input that shows it | evidently intended | confidence | as-written member | corrected member |
|---|---|---|---|---|---|---|
| bot/bot.py:192-196 | `check_subscriptions` loops over `get_active_users()`, which selects only rows with `end_date > now` (db/database.py:93). It then revokes only rows with `now >= end_date`, so a row is revoked only if its end date falls between the two clock readings | user 42 pays at t0+120. One day after the paid month ends, the listing is empty, and the client `uuid-1` and the end date stay in place (`Bot.PurchaseThenExpiryScenario`) | sweep every row whose `end_date` is set, and revoke the ones at or before now | high; not executed. Also, nothing in the code calls `check_subscriptions`: `main` (bot/bot.py:212-215) only initialises v2ray and starts polling | `Bot.SweepIdleOnActiveListing` | `Bot.CheckSubscriptionsCorrected` |

=== FILE: bot.dfy ===
/** bot/bot.py: the decisions of the command handlers and the expiry sweep.
    Each handler is one atomic step; the clock readings (`datetime.now()`) and
    the drawn UUIDs are parameters; messages sent back to the chat are
    returned as a reply value. */
module Bot {
  import opened Wrappers
  import Db
  import Vpn
  import Gateway

  const Day: int := 86400
  /** `timedelta(days=30)`. */
  const SubscriptionPeriod: int := 30 * Day
  const Price: real := 5.0
  const Currency: string := "USD"
  const BuyDescription: string := "VPN-подписка на 30 дней"
  const RenewDescription: string := "Продление VPN-подписки на 30 дней"

  // ---------------------------------------------------------------------------
  // The FSM slot (aiogram's MemoryStorage), kept per user: one chat per user

  /** Whether the user's slot is in `BuyStates.waiting_for_payment`, and the
      `payment_id` and `amount` kept in its data. */
  datatype ChatState = ChatState(waitingForPayment: bool, paymentId: Option<string>, amount: Option<real>)

  type Slots = map<int, ChatState>

  /** A user with no slot has no state and no data. */
  function Slot(slots: Slots, u: int): ChatState {
    if u in slots then slots[u] else ChatState(false, None, None)
  }

  class FsmStorage {
    var slots: Slots

    constructor ()
      ensures slots == map[]
    {
      slots := map[];
    }

    /** `update_data(payment_id=…, amount=…)` then `set_state(waiting_for_payment)`. */
    method WaitForPayment(u: int, paymentId: string, amount: real)
      modifies this
      ensures slots == old(slots)[u := ChatState(true, Some(paymentId), Some(amount))]
    {
      slots := slots[u := ChatState(true, Some(paymentId), Some(amount))];
    }

    /** `state.clear()`: no state and no data. */
    method Clear(u: int)
      modifies this
      ensures slots == old(slots) - {u}
      ensures Slot(slots, u) == ChatState(false, None, None)
    {
      slots := slots - {u};
    }
  }

  // ---------------------------------------------------------------------------
  // Guards and date arithmetic

  /** The `/buy` refusal: a row exists, its `end_date` is set and `now` is
      before it. */
  predicate BuyRefused(user: Option<Db.UserRecord>, now: int) {
    user.Some? && user.value.endDate.Some? && now < user.value.endDate.value
  }

  /** The `/renew` refusal: there is no row. The end date is not consulted. */
  predicate RenewRefused(user: Option<Db.UserRecord>) {
    user.None?
  }

  /** `/buy` is refused exactly for the users `get_active_users` would list at
      the same instant, and `/renew` for the users with no row at all, so an
      active user may renew and an expired one may buy or renew. */
  lemma GuardsMatchTable(t: Db.Table, u: int, now: int)
    requires Db.KeyedByUserId(t)
    ensures BuyRefused(Db.GetUser(t, u), now) <==> u in t && Db.IsActive(t[u], now)
    ensures RenewRefused(Db.GetUser(t, u)) <==> u !in t
    ensures BuyRefused(Db.GetUser(t, u), now) ==> !RenewRefused(Db.GetUser(t, u))
  {
  }

  /** The end date a `completed` payment sets: the stored `end_date` plus 30
      days when there is one (even if it lies in the past), otherwise `now`
      plus 30 days. */
  function NewEndDate(user: Option<Db.UserRecord>, now: int): int {
    if user.Some? && user.value.endDate.Some? then user.value.endDate.value + SubscriptionPeriod
    else now + SubscriptionPeriod
  }

  /** The table after the record step of a `completed` payment:
      `update_subscription` for an existing row, `create_user` otherwise. */
  function Renewed(t: Db.Table, u: int, now: int): Db.Table {
    if u in t then Db.WithEndDate(t, u, Some(NewEndDate(Db.GetUser(t, u), now)))
    else Db.Inserted(t, u, now + SubscriptionPeriod, now)
  }

  /** The table after a `completed` payment: the record step, then
      `create_v2ray_user` storing the drawn UUID. */
  function AfterCompletion(t: Db.Table, u: int, now: int, uuid: string): Db.Table {
    Db.WithV2rayId(Renewed(t, u, now), u, uuid)
  }

  /** What a `completed` payment does to the user's row: the three end-date
      cases, the new UUID stored, the start date kept for an existing row and
      set to `now` for a new one, and every other row untouched. */
  lemma CompletionRecord(t: Db.Table, u: int, now: int, uuid: string)
    requires Db.KeyedByUserId(t)
    ensures Db.KeyedByUserId(AfterCompletion(t, u, now, uuid))
    ensures u in AfterCompletion(t, u, now, uuid)
    ensures AfterCompletion(t, u, now, uuid).Keys == t.Keys + {u}
    ensures u in t && t[u].endDate.Some? ==>
      AfterCompletion(t, u, now, uuid)[u].endDate == Some(t[u].endDate.value + 30 * 86400)
    ensures u in t && t[u].endDate.None? ==>
      AfterCompletion(t, u, now, uuid)[u].endDate == Some(now + 30 * 86400)
    ensures u !in t ==>
      AfterCompletion(t, u, now, uuid)[u] == Db.UserRecord(u, now, Some(now + 30 * 86400), Some(uuid), now)
    ensures u in t ==>
      AfterCompletion(t, u, now, uuid)[u] == t[u].(endDate := Some(NewEndDate(Some(t[u]), now)), v2rayId := Some(uuid))
    ensures Db.GetUserV2rayId(AfterCompletion(t, u, now, uuid), u) == Some(uuid)
    ensures forall v :: v != u ==> Db.GetUser(AfterCompletion(t, u, now, uuid), v) == Db.GetUser(t, v)
  {
    Db.WithEndDateOnlyEndDate(t, u, Some(NewEndDate(Db.GetUser(t, u), now)));
    Db.InsertedReplacesRow(t, u, now + SubscriptionPeriod, now);
    Db.WithV2rayIdRoundTrip(Renewed(t, u, now), u, uuid);
  }

  /** Renewal is additive from the stored end date, not from `now`: a user
      whose subscription lapsed more than 30 days ago pays and is still not
      active afterwards, while a user who is still active gains exactly 30
      days. */
  lemma RenewalAddsToStoredEnd(t: Db.Table, u: int, now: int, uuid: string)
    requires Db.KeyedByUserId(t)
    requires u in t && t[u].endDate.Some?
    ensures Db.IsActive(AfterCompletion(t, u, now, uuid)[u], now)
        <==> t[u].endDate.value + SubscriptionPeriod > now
    ensures Db.IsActive(t[u], now) ==>
      AfterCompletion(t, u, now, uuid)[u].endDate.value - t[u].endDate.value == SubscriptionPeriod
  {
    CompletionRecord(t, u, now, uuid);
  }

  /** After a `completed` payment with a non-empty UUID, the config file can
      be generated and names that UUID, and the directory lists a client with
      that UUID; for a UUID not yet listed, the appended client carries the
      user's label. */
  lemma CompletionDeliversConfig(t: Db.Table, clients: seq<Vpn.Client>, u: int, now: int, uuid: string, serverIp: string)
    requires Db.KeyedByUserId(t)
    requires uuid != ""
    ensures Vpn.GenerateV2rayConfig(AfterCompletion(t, u, now, uuid), u, serverIp).Ok?
    ensures Vpn.GenerateV2rayConfig(AfterCompletion(t, u, now, uuid), u, serverIp).value.config.id == uuid
    ensures Vpn.HasClientId(Vpn.AfterCreate(clients, u, uuid), uuid)
    ensures !Vpn.HasClientId(clients, uuid) ==>
      Vpn.AfterCreate(clients, u, uuid)[|clients|] == Vpn.Client(uuid, Vpn.Flow, 0, Vpn.Email(u))
  {
    CompletionRecord(t, u, now, uuid);
    if !Vpn.HasClientId(clients, uuid) {
      assert Vpn.AfterCreate(clients, u, uuid)[|clients|].id == uuid;
    }
  }

  /** A renewal leaves the previous client behind: it stays in the directory,
      the user's row now names only the new UUID, the user has one more
      client, and revoking the user afterwards removes the new client but
      never the old one. */
  lemma RenewalOrphansPreviousClient(t: Db.Table, clients: seq<Vpn.Client>, u: int, now: int, uuid: string)
    requires Db.KeyedByUserId(t)
    requires u in t && t[u].v2rayId.Some? && t[u].v2rayId.value != uuid
    requires Vpn.HasClientId(clients, t[u].v2rayId.value)
    requires !Vpn.HasClientId(clients, uuid)
    ensures var after := Vpn.AfterCreate(clients, u, uuid);
      && Vpn.HasClientId(after, t[u].v2rayId.value)
      && Vpn.CountEmail(after, Vpn.Email(u)) == Vpn.CountEmail(clients, Vpn.Email(u)) + 1
      && Vpn.HasClientId(Vpn.AfterRemove(after, AfterCompletion(t, u, now, uuid), u), t[u].v2rayId.value)
      && (uuid != "" ==> !Vpn.HasClientId(Vpn.AfterRemove(after, AfterCompletion(t, u, now, uuid), u), uuid))
  {
    var previous := t[u].v2rayId.value;
    var after := Vpn.AfterCreate(clients, u, uuid);
    var i :| 0 <= i < |clients| && clients[i].id == previous;
    assert after[i] == clients[i];
    Vpn.AfterCreateNoDedupByUser(clients, u, uuid);
    CompletionRecord(t, u, now, uuid);
    if uuid != "" {
      var remaining := Vpn.AfterRemove(after, AfterCompletion(t, u, now, uuid), u);
      assert remaining == Vpn.WithoutId(after, uuid);
      Vpn.WithoutIdMembers(after, uuid);
      assert after[i] in remaining;
      var j :| 0 <= j < |remaining| && remaining[j] == after[i];
      assert remaining[j].id == previous;
      Vpn.AfterRemoveRevokes(after, AfterCompletion(t, u, now, uuid), u);
    }
  }

  // ---------------------------------------------------------------------------
  // /status

  /** The replies of `/status`. */
  datatype StatusReply = NotRegistered | Active(days: int, hours: int, minutes: int) | Expired | NoSubscription

  /** `cmd_status`. `checkedAt` is the clock reading compared with the end
      date, `measuredAt` the later one the remaining time is computed from.
      `timedelta` normalises to whole days and 0 <= seconds < 86400, which is
      Euclidean division by a positive divisor. */
  function CmdStatus(t: Db.Table, u: int, checkedAt: int, measuredAt: int): (r: StatusReply)
    ensures r == NotRegistered <==> u !in t
    ensures r == NoSubscription <==> u in t && t[u].endDate.None?
    ensures r.Active? <==> u in t && t[u].endDate.Some? && checkedAt < t[u].endDate.value
    ensures r == Expired <==> u in t && t[u].endDate.Some? && t[u].endDate.value <= checkedAt
  {
    match Db.GetUser(t, u)
    case None => NotRegistered
    case Some(r) =>
      match r.endDate
      case None => NoSubscription
      case Some(e) =>
        if checkedAt < e then
          var remaining := e - measuredAt;
          var seconds := remaining % Day;
          Active(remaining / Day, seconds / 3600, seconds % 3600 / 60)
        else Expired
  }

  /** The split of the remaining time: hours below 24, minutes below 60, and
      days/hours/minutes give the remaining seconds rounded down to the
      minute. With one clock reading the day count is never negative. */
  lemma RemainingTimeSplit(t: Db.Table, u: int, checkedAt: int, measuredAt: int)
    requires CmdStatus(t, u, checkedAt, measuredAt).Active?
    ensures var s := CmdStatus(t, u, checkedAt, measuredAt);
      var remaining := t[u].endDate.value - measuredAt;
      && 0 <= s.hours < 24
      && 0 <= s.minutes < 60
      && s.days * Day + s.hours * 3600 + s.minutes * 60 <= remaining < s.days * Day + s.hours * 3600 + s.minutes * 60 + 60
      && s.hours == remaining % Day / 3600
      && s.minutes == remaining % Day % 3600 / 60
    ensures measuredAt <= checkedAt ==> CmdStatus(t, u, checkedAt, measuredAt).days >= 0
  {
  }

  // ---------------------------------------------------------------------------
  // /buy, /renew and the payment check

  /** The replies of `/buy` and `/renew`. The branch for a failed payment
      creation is absent: the mock gateway always returns a link. */
  datatype RequestReply = AlreadyActive | NotRegisteredForRenewal | PaymentOffered(paymentUrl: string)

  /** The shared tail of `cmd_buy` and `cmd_renew`: open a payment for the
      fixed price and put the chat in `waiting_for_payment` with its id. */
  method OfferPayment(gw: Gateway.MockGateway, fsm: FsmStorage, u: int, description: string, freshPaymentId: string)
    returns (reply: RequestReply)
    modifies gw, fsm
    ensures gw.payments == Gateway.Opened(old(gw.payments), freshPaymentId, u, Price, Currency)
    ensures fsm.slots == old(fsm.slots)[u := ChatState(true, Some(freshPaymentId), Some(Price))]
    ensures reply == PaymentOffered("https://example.com/mock-payment/" + freshPaymentId)
  {
    var link := gw.CreatePaymentLink(Price, Currency, description, u, freshPaymentId);
    fsm.WaitForPayment(u, link.paymentId, Price);
    reply := PaymentOffered(link.paymentUrl);
  }

  /** `cmd_buy`: refused without any state change while the user is active. */
  method CmdBuy(db: Db.UserTable, gw: Gateway.MockGateway, fsm: FsmStorage, u: int, now: int, freshPaymentId: string)
    returns (reply: RequestReply)
    modifies gw, fsm
    ensures BuyRefused(Db.GetUser(db.rows, u), now) ==>
      reply == AlreadyActive && gw.payments == old(gw.payments) && fsm.slots == old(fsm.slots)
    ensures !BuyRefused(Db.GetUser(db.rows, u), now) ==>
      && gw.payments == Gateway.Opened(old(gw.payments), freshPaymentId, u, Price, Currency)
      && fsm.slots == old(fsm.slots)[u := ChatState(true, Some(freshPaymentId), Some(Price))]
      && reply == PaymentOffered("https://example.com/mock-payment/" + freshPaymentId)
  {
    if BuyRefused(Db.GetUser(db.rows, u), now) {
      return AlreadyActive;
    }
    reply := OfferPayment(gw, fsm, u, BuyDescription, freshPaymentId);
  }

  /** `cmd_renew`: refused without any state change when the user has no row. */
  method CmdRenew(db: Db.UserTable, gw: Gateway.MockGateway, fsm: FsmStorage, u: int, freshPaymentId: string)
    returns (reply: RequestReply)
    modifies gw, fsm
    ensures RenewRefused(Db.GetUser(db.rows, u)) ==>
      reply == NotRegisteredForRenewal && gw.payments == old(gw.payments) && fsm.slots == old(fsm.slots)
    ensures !RenewRefused(Db.GetUser(db.rows, u)) ==>
      && gw.payments == Gateway.Opened(old(gw.payments), freshPaymentId, u, Price, Currency)
      && fsm.slots == old(fsm.slots)[u := ChatState(true, Some(freshPaymentId), Some(Price))]
      && reply == PaymentOffered("https://example.com/mock-payment/" + freshPaymentId)
  {
    if RenewRefused(Db.GetUser(db.rows, u)) {
      return NotRegisteredForRenewal;
    }
    reply := OfferPayment(gw, fsm, u, RenewDescription, freshPaymentId);
  }

  /** The replies of the payment check; `NotDispatched` when the chat is not
      waiting for a payment (no handler takes the message), `ConfigFailed`
      when `generate_v2ray_config` raises after the record and the directory
      were already changed. */
  datatype CheckReply =
    | NotDispatched
    | NoPaymentInfo
    | Delivered(file: Vpn.ConfigFile)
    | ConfigFailed(error: Vpn.ConfigError)
    | StillPending
    | NotCompleted

  /** The `payment_id` the handler acts on, if the chat is waiting and
      `if not payment_id` does not stop it. */
  function PendingPaymentId(slot: ChatState): Option<string> {
    if slot.waitingForPayment && slot.paymentId.Some? && slot.paymentId.value != "" then slot.paymentId
    else None
  }

  /** `handle_payment_check` for user `u` at time `now`; `uuid` is the UUID
      `create_v2ray_user` draws. On "completed": record step, then client,
      then config, and the FSM is cleared last. Any other status changes
      nothing. */
  method HandlePaymentCheck(
    db: Db.UserTable, vpn: Vpn.Directory, gw: Gateway.MockGateway, fsm: FsmStorage,
    u: int, now: int, uuid: string, serverIp: string)
    returns (reply: CheckReply)
    requires db.Valid()
    modifies db, vpn, fsm
    ensures db.Valid()
    ensures var slot := Slot(old(fsm.slots), u);
      var completed := PendingPaymentId(slot).Some?
                       && Gateway.CheckPaymentStatus(gw.payments, PendingPaymentId(slot).value) == "completed";
      && (!completed ==>
            db.rows == old(db.rows) && vpn.clients == old(vpn.clients) && fsm.slots == old(fsm.slots))
      && (!slot.waitingForPayment ==> reply == NotDispatched)
      && (slot.waitingForPayment && PendingPaymentId(slot).None? ==> reply == NoPaymentInfo)
      && (PendingPaymentId(slot).Some? ==>
            var status := Gateway.CheckPaymentStatus(gw.payments, PendingPaymentId(slot).value);
            && (status == "pending" ==> reply == StillPending)
            && (status != "pending" && status != "completed" ==> reply == NotCompleted))
      && (completed ==>
            && db.rows == AfterCompletion(old(db.rows), u, now, uuid)
            && vpn.clients == Vpn.AfterCreate(old(vpn.clients), u, uuid)
            && var config := Vpn.GenerateV2rayConfig(db.rows, u, serverIp);
            && (config.Ok? ==> reply == Delivered(config.value) && fsm.slots == old(fsm.slots) - {u})
            && (config.Err? ==> reply == ConfigFailed(config.error) && fsm.slots == old(fsm.slots)))
  {
    var slot := Slot(fsm.slots, u);
    if !slot.waitingForPayment {
      return NotDispatched;
    }
    var paymentId := PendingPaymentId(slot);
    if paymentId.None? {
      return NoPaymentInfo;
    }
    var status := Gateway.CheckPaymentStatus(gw.payments, paymentId.value);
    if status == "completed" {
      var user := Db.GetUser(db.rows, u);
      if user.Some? {
        db.UpdateSubscription(u, Some(NewEndDate(user, now)));
      } else {
        db.CreateUser(u, now + SubscriptionPeriod, now);
      }
      vpn.CreateV2rayUser(db, u, uuid);
      var config := Vpn.GenerateV2rayConfig(db.rows, u, serverIp);
      if config.Err? {
        return ConfigFailed(config.error);
      }
      fsm.Clear(u);
      reply := Delivered(config.value);
    } else if status == "pending" {
      reply := StillPending;
    } else {
      reply := NotCompleted;
    }
  }

  // ---------------------------------------------------------------------------
  // The expiry sweep

  /** What the sweep has changed so far: the table, the client list, and the
      users told about their expiry (`notified`) or whose notice failed and
      was only logged (`unreachable`). */
  datatype SweepState = SweepState(
    rows: Db.Table, clients: seq<Vpn.Client>, notified: seq<int>, unreachable: seq<int>)

  /** One iteration of `check_subscriptions` for the listed row `r` at clock
      reading `now`: if its (listed) end date has passed, revoke the client,
      clear `end_date`, then notify; `reachable(u)` says whether sending the
      message to `u` succeeds. */
  function SweepStep(s: SweepState, r: Db.UserRecord, now: int, reachable: int -> bool): SweepState {
    if r.endDate.Some? && now >= r.endDate.value then
      var clients := Vpn.AfterRemove(s.clients, s.rows, r.userId);
      var rows := Db.WithEndDate(s.rows, r.userId, None);
      if reachable(r.userId) then SweepState(rows, clients, s.notified + [r.userId], s.unreachable)
      else SweepState(rows, clients, s.notified, s.unreachable + [r.userId])
    else s
  }

  /** The sweep over `listed`, the k-th iteration reading the clock as `clock(k)`. */
  function Sweep(s: SweepState, listed: seq<Db.UserRecord>, clock: nat -> int, reachable: int -> bool): SweepState
    decreases |listed|
  {
    if listed == [] then s
    else
      var k := |listed| - 1;
      SweepStep(Sweep(s, listed[..k], clock, reachable), listed[k], clock(k), reachable)
  }

  /** The per-user loop of `check_subscriptions` over `listed`. */
  method RevokeExpired(db: Db.UserTable, vpn: Vpn.Directory, listed: seq<Db.UserRecord>, clock: nat -> int, reachable: int -> bool)
    returns (notified: seq<int>, unreachable: seq<int>)
    requires db.Valid()
    modifies db, vpn
    ensures db.Valid()
    ensures SweepState(db.rows, vpn.clients, notified, unreachable)
         == Sweep(SweepState(old(db.rows), old(vpn.clients), [], []), listed, clock, reachable)
  {
    notified, unreachable := [], [];
    var k := 0;
    while k < |listed|
      invariant 0 <= k <= |listed|
      invariant db.Valid()
      invariant SweepState(db.rows, vpn.clients, notified, unreachable)
             == Sweep(SweepState(old(db.rows), old(vpn.clients), [], []), listed[..k], clock, reachable)
    {
      var r := listed[k];
      if r.endDate.Some? && clock(k) >= r.endDate.value {
        vpn.RemoveV2rayUser(db, r.userId);
        db.UpdateSubscription(r.userId, None);
        if reachable(r.userId) {
          notified := notified + [r.userId];
        } else {
          unreachable := unreachable + [r.userId];
        }
      }
      assert listed[..k + 1][..k] == listed[..k];
      k := k + 1;
    }
    assert listed[..k] == listed;
  }

  /** `check_subscriptions`: list the active users (the query reads the clock
      as `listedAt`), then run the per-user loop. */
  method CheckSubscriptions(db: Db.UserTable, vpn: Vpn.Directory, listedAt: int, clock: nat -> int, reachable: int -> bool)
    returns (listed: seq<Db.UserRecord>, notified: seq<int>, unreachable: seq<int>)
    requires db.Valid()
    modifies db, vpn
    ensures db.Valid()
    ensures forall r :: r in listed <==>
      r.userId in old(db.rows) && old(db.rows)[r.userId] == r && Db.IsActive(r, listedAt)
    ensures SweepState(db.rows, vpn.clients, notified, unreachable)
         == Sweep(SweepState(old(db.rows), old(vpn.clients), [], []), listed, clock, reachable)
  {
    listed := db.GetActiveUsers(listedAt);
    notified, unreachable := RevokeExpired(db, vpn, listed, clock, reachable);
  }

  /** As written, the sweep cannot fire unless the clock moves past
      `listedAt` during the loop: every listed row ends after `listedAt`, so
      with no later clock reading the whole state is left as it was, and an
      expired user keeps both the end date and the client. */
  lemma {:induction false} SweepIdleOnActiveListing(
    s: SweepState, listed: seq<Db.UserRecord>, listedAt: int, clock: nat -> int, reachable: int -> bool)
    requires forall k :: 0 <= k < |listed| ==> Db.IsActive(listed[k], listedAt)
    requires forall k :: 0 <= k < |listed| ==> clock(k) <= listedAt
    ensures Sweep(s, listed, clock, reachable) == s
    decreases |listed|
  {
    if listed != [] {
      SweepIdleOnActiveListing(s, listed[..|listed| - 1], listedAt, clock, reachable);
    }
  }

  /** Users not in the listing keep their row. */
  lemma {:induction false} SweepTouchesOnlyListed(
    s: SweepState, listed: seq<Db.UserRecord>, clock: nat -> int, reachable: int -> bool, u: int)
    requires forall k :: 0 <= k < |listed| ==> listed[k].userId != u
    ensures Db.GetUser(Sweep(s, listed, clock, reachable).rows, u) == Db.GetUser(s.rows, u)
    decreases |listed|
  {
    if listed != [] {
      SweepTouchesOnlyListed(s, listed[..|listed| - 1], clock, reachable, u);
    }
  }

  /** A listed user who is not due at any reading of the clock that handles
      one of the user's entries keeps the row untouched: the sweep never
      revokes early. */
  lemma {:induction false} SweepSparesNotDue(
    s: SweepState, listed: seq<Db.UserRecord>, clock: nat -> int, reachable: int -> bool, u: int)
    requires forall k :: 0 <= k < |listed| && listed[k].userId == u ==>
      listed[k].endDate.None? || clock(k) < listed[k].endDate.value
    ensures Db.GetUser(Sweep(s, listed, clock, reachable).rows, u) == Db.GetUser(s.rows, u)
    decreases |listed|
  {
    if listed != [] {
      SweepSparesNotDue(s, listed[..|listed| - 1], clock, reachable, u);
    }
  }

  /** A client survives the sweep unless some step that fires (the entry is
      due at its clock reading) revokes a user whose stored UUID is the
      client's id. */
  lemma {:induction false} SweepKeepsOtherClients(
    s: SweepState, listed: seq<Db.UserRecord>, clock: nat -> int, reachable: int -> bool, c: Vpn.Client)
    requires c in s.clients
    requires forall k :: 0 <= k < |listed| && listed[k].endDate.Some? && clock(k) >= listed[k].endDate.value ==>
      Db.GetUserV2rayId(s.rows, listed[k].userId) != Some(c.id)
    ensures c in Sweep(s, listed, clock, reachable).clients
    decreases |listed|
  {
    if listed != [] {
      var n := |listed| - 1;
      var mid := Sweep(s, listed[..n], clock, reachable);
      SweepKeepsOtherClients(s, listed[..n], clock, reachable, c);
      SweepMonotone(s, listed[..n], clock, reachable);
      var r := listed[n];
      if r.endDate.Some? && clock(n) >= r.endDate.value {
        var id := Db.GetUserV2rayId(mid.rows, r.userId);
        if id.Some? && id.value != "" {
          Vpn.WithoutIdMembers(mid.clients, id.value);
        }
      }
    }
  }

  /** The sweep never changes which rows exist, never changes a stored UUID,
      never sets an end date, and never re-adds a client id it does not find. */
  lemma {:induction false} SweepMonotone(
    s: SweepState, listed: seq<Db.UserRecord>, clock: nat -> int, reachable: int -> bool)
    ensures var r := Sweep(s, listed, clock, reachable);
      && r.rows.Keys == s.rows.Keys
      && (forall u :: Db.GetUserV2rayId(r.rows, u) == Db.GetUserV2rayId(s.rows, u))
      && (forall u :: u in s.rows && s.rows[u].endDate.None? ==> r.rows[u].endDate.None?)
      && (forall x :: !Vpn.HasClientId(s.clients, x) ==> !Vpn.HasClientId(r.clients, x))
    decreases |listed|
  {
    if listed != [] {
      var k := |listed| - 1;
      var mid := Sweep(s, listed[..k], clock, reachable);
      SweepMonotone(s, listed[..k], clock, reachable);
      StepMonotone(mid, listed[k], clock(k), reachable);
    }
  }

  lemma StepMonotone(s: SweepState, r: Db.UserRecord, now: int, reachable: int -> bool)
    ensures var n := SweepStep(s, r, now, reachable);
      && n.rows.Keys == s.rows.Keys
      && (forall u :: Db.GetUserV2rayId(n.rows, u) == Db.GetUserV2rayId(s.rows, u))
      && (forall u :: u in s.rows && s.rows[u].endDate.None? ==> n.rows[u].endDate.None?)
      && (forall x :: !Vpn.HasClientId(s.clients, x) ==> !Vpn.HasClientId(n.clients, x))
  {
    if r.endDate.Some? && now >= r.endDate.value {
      var id := Db.GetUserV2rayId(s.rows, r.userId);
      if id.Some? && id.value != "" {
        forall x | !Vpn.HasClientId(s.clients, x)
          ensures !Vpn.HasClientId(Vpn.WithoutId(s.clients, id.value), x)
        {
          var f := Vpn.WithoutId(s.clients, id.value);
          Vpn.WithoutIdMembers(s.clients, id.value);
          forall i | 0 <= i < |f| ensures f[i].id != x {
            assert f[i] in f;
            var j :| 0 <= j < |s.clients| && s.clients[j] == f[i];
          }
        }
      }
    }
  }

  /** The intended sweep: fed a listing that holds every row with an end date
      (not only the active ones), one pass clears the end date of every user
      whose end date is at or before `now` and removes every client carrying
      that user's stored UUID. */
  lemma {:induction false} SweepConverges(
    s: SweepState, listed: seq<Db.UserRecord>, now: int, clock: nat -> int, reachable: int -> bool)
    requires forall k :: 0 <= k < |listed| ==> now <= clock(k)
    ensures var r := Sweep(s, listed, clock, reachable);
      forall k :: 0 <= k < |listed| && listed[k].endDate.Some? && listed[k].endDate.value <= now ==>
        && (listed[k].userId in r.rows ==> r.rows[listed[k].userId].endDate.None?)
        && (Db.GetUserV2rayId(s.rows, listed[k].userId).Some? && Db.GetUserV2rayId(s.rows, listed[k].userId).value != "" ==>
              !Vpn.HasClientId(r.clients, Db.GetUserV2rayId(s.rows, listed[k].userId).value))
    decreases |listed|
  {
    if listed != [] {
      var n := |listed| - 1;
      var mid := Sweep(s, listed[..n], clock, reachable);
      var r := Sweep(s, listed, clock, reachable);
      SweepConverges(s, listed[..n], now, clock, reachable);
      SweepMonotone(s, listed[..n], clock, reachable);
      StepMonotone(mid, listed[n], clock(n), reachable);
      forall k | 0 <= k < |listed| && listed[k].endDate.Some? && listed[k].endDate.value <= now
        ensures listed[k].userId in r.rows ==> r.rows[listed[k].userId].endDate.None?
        ensures Db.GetUserV2rayId(s.rows, listed[k].userId).Some? && Db.GetUserV2rayId(s.rows, listed[k].userId).value != "" ==>
              !Vpn.HasClientId(r.clients, Db.GetUserV2rayId(s.rows, listed[k].userId).value)
      {
        var u := listed[k].userId;
        if k < n {
          assert listed[..n][k] == listed[k];
        } else {
          var id := Db.GetUserV2rayId(mid.rows, u);
          if id.Some? && id.value != "" {
            Vpn.WithoutIdIdempotent(mid.clients, id.value);
          }
        }
      }
    }
  }

  /** `check_subscriptions` with `get_active_users` replaced by the listing of
      every row whose `end_date` is set: after the pass with clock readings no
      earlier than `now`, no user whose end date was at or before `now` keeps
      an end date or a client carrying the stored UUID, and a user whose end
      date lies after every clock reading keeps the row unchanged. */
  method CheckSubscriptionsCorrected(db: Db.UserTable, vpn: Vpn.Directory, now: int, clock: nat -> int, reachable: int -> bool)
    returns (listed: seq<Db.UserRecord>, notified: seq<int>, unreachable: seq<int>)
    requires db.Valid()
    requires forall k :: now <= clock(k)
    modifies db, vpn
    ensures db.Valid()
    ensures db.rows.Keys == old(db.rows).Keys
    ensures forall u :: u in old(db.rows) && old(db.rows)[u].endDate.Some? && old(db.rows)[u].endDate.value <= now ==>
      && db.rows[u].endDate.None?
      && (Db.GetUserV2rayId(old(db.rows), u).Some? && Db.GetUserV2rayId(old(db.rows), u).value != "" ==>
            !Vpn.HasClientId(vpn.clients, Db.GetUserV2rayId(old(db.rows), u).value))
    ensures forall u ::
      (u in old(db.rows) && old(db.rows)[u].endDate.Some? && (forall k :: clock(k) < old(db.rows)[u].endDate.value))
      ==> u in db.rows && db.rows[u] == old(db.rows)[u]
    ensures forall c ::
      (&& c in old(vpn.clients)
       && (forall v :: v in old(db.rows) && old(db.rows)[v].endDate.Some? && Db.GetUserV2rayId(old(db.rows), v) == Some(c.id) ==>
             forall k :: clock(k) < old(db.rows)[v].endDate.value))
      ==> c in vpn.clients
    ensures forall r :: r in listed <==>
      r.userId in old(db.rows) && old(db.rows)[r.userId] == r && r.endDate.Some?
    ensures SweepState(db.rows, vpn.clients, notified, unreachable)
         == Sweep(SweepState(old(db.rows), old(vpn.clients), [], []), listed, clock, reachable)
  {
    listed := db.GetSubscribedUsers();
    ghost var s := SweepState(db.rows, vpn.clients, [], []);
    notified, unreachable := RevokeExpired(db, vpn, listed, clock, reachable);
    SweepConverges(s, listed, now, clock, reachable);
    SweepMonotone(s, listed, clock, reachable);
    forall u | u in s.rows && s.rows[u].endDate.Some? && s.rows[u].endDate.value <= now
      ensures db.rows[u].endDate.None?
      ensures Db.GetUserV2rayId(s.rows, u).Some? && Db.GetUserV2rayId(s.rows, u).value != "" ==>
            !Vpn.HasClientId(vpn.clients, Db.GetUserV2rayId(s.rows, u).value)
    {
      assert s.rows[u] in listed;
      var k :| 0 <= k < |listed| && listed[k] == s.rows[u];
    }
    forall u | u in s.rows && s.rows[u].endDate.Some? && (forall k :: clock(k) < s.rows[u].endDate.value)
      ensures u in db.rows && db.rows[u] == s.rows[u]
    {
      forall k | 0 <= k < |listed| && listed[k].userId == u
        ensures listed[k].endDate.None? || clock(k) < listed[k].endDate.value
      {
        assert listed[k] in listed;
      }
      SweepSparesNotDue(s, listed, clock, reachable, u);
    }
    forall c | c in s.clients &&
      (forall v :: v in s.rows && s.rows[v].endDate.Some? && Db.GetUserV2rayId(s.rows, v) == Some(c.id) ==>
         forall k :: clock(k) < s.rows[v].endDate.value)
      ensures c in vpn.clients
    {
      forall k | 0 <= k < |listed| && listed[k].endDate.Some? && clock(k) >= listed[k].endDate.value
        ensures Db.GetUserV2rayId(s.rows, listed[k].userId) != Some(c.id)
      {
        assert listed[k] in listed;
      }
      SweepKeepsOtherClients(s, listed, clock, reachable, c);
    }
  }

  // ---------------------------------------------------------------------------
  // A client of the contracts above

  /** First purchase by user 42 at time `t0`, paid two minutes later; a day
      after the paid month the sweep as written leaves the user's client and
      end date in place, and the corrected sweep revokes them. */
  method PurchaseThenExpiryScenario(t0: int) {
    var db := new Db.UserTable();
    var vpn := new Vpn.Directory();
    var gw := new Gateway.MockGateway();
    var fsm := new FsmStorage();

    var offered := CmdBuy(db, gw, fsm, 42, t0, "pay-1");
    assert offered == PaymentOffered("https://example.com/mock-payment/pay-1");
    var early := HandlePaymentCheck(db, vpn, gw, fsm, 42, t0 + 60, "uuid-1", "127.0.0.1");
    assert early == StillPending && db.rows == map[];

    gw.SetMockPaymentStatus("pay-1", "completed");
    var paid := HandlePaymentCheck(db, vpn, gw, fsm, 42, t0 + 120, "uuid-1", "127.0.0.1");
    var end := t0 + 120 + SubscriptionPeriod;
    assert db.rows[42] == Db.UserRecord(42, t0 + 120, Some(end), Some("uuid-1"), t0 + 120);
    assert vpn.clients == [Vpn.NewClient(42, "uuid-1")];
    assert paid.Delivered? && paid.file.config.id == "uuid-1";
    assert Slot(fsm.slots, 42) == ChatState(false, None, None);

    var later := end + Day;
    var clock := (k: nat) => later;
    var reachable := (v: int) => true;
    ghost var before := SweepState(db.rows, vpn.clients, [], []);
    var listed, notified, unreachable := CheckSubscriptions(db, vpn, later, clock, reachable);
    forall k | 0 <= k < |listed|
      ensures Db.IsActive(listed[k], later)
    {
      assert listed[k] in listed;
    }
    SweepIdleOnActiveListing(before, listed, later, clock, reachable);
    assert db.rows[42].endDate == Some(end) && vpn.clients == [Vpn.NewClient(42, "uuid-1")];
    assert CmdStatus(db.rows, 42, later, later) == Expired;

    listed, notified, unreachable := CheckSubscriptionsCorrected(db, vpn, later, clock, reachable);
    assert db.rows[42].endDate.None? && !Vpn.HasClientId(vpn.clients, "uuid-1");
  }
}

=== FILE: database.dfy ===
/** The `users` table of db/database.py. Timestamps are integer seconds on one
    clock (the source stores ISO strings and compares them as dates); the
    caller passes the clock reading `now` in. */
module Db {
  import opened Wrappers

  /** One row of `users`; `user_id` is the INTEGER PRIMARY KEY. `end_date` and
      `v2ray_id` are nullable columns. */
  datatype UserRecord = UserRecord(
    userId: int,
    startDate: int,
    endDate: Option<int>,
    v2rayId: Option<string>,
    createdAt: int)

  /** The table, keyed by primary key. */
  type Table = map<int, UserRecord>

  /** The primary-key constraint: each row is stored under its own `user_id`,
      so there is at most one row per `user_id`. */
  ghost predicate KeyedByUserId(t: Table) {
    forall u :: u in t ==> t[u].userId == u
  }

  /** The filter of `get_active_users`: `end_date IS NOT NULL AND end_date > now`. */
  predicate IsActive(r: UserRecord, now: int) {
    r.endDate.Some? && r.endDate.value > now
  }

  /** `get_user`: the row with this `user_id`, or None. */
  function GetUser(t: Table, u: int): Option<UserRecord> {
    if u in t then Some(t[u]) else None
  }

  /** `get_user_v2ray_id`: the `v2ray_id` column of the row, or None when
      there is no row or the column is NULL. */
  function GetUserV2rayId(t: Table, u: int): Option<string> {
    if u in t then t[u].v2rayId else None
  }

  /** The table after `create_user(u, endDate)` at time `now`:
      INSERT OR REPLACE deletes any old row and inserts a fresh one, so the
      unnamed columns take their defaults (`v2ray_id` NULL, `created_at` the
      insertion time). */
  function Inserted(t: Table, u: int, endDate: int, now: int): Table {
    t[u := UserRecord(u, now, Some(endDate), None, now)]
  }

  /** The table after `UPDATE users SET end_date = d WHERE user_id = u`. */
  function WithEndDate(t: Table, u: int, d: Option<int>): Table {
    if u in t then t[u := t[u].(endDate := d)] else t
  }

  /** The table after `UPDATE users SET v2ray_id = x WHERE user_id = u`. */
  function WithV2rayId(t: Table, u: int, x: string): Table {
    if u in t then t[u := t[u].(v2rayId := Some(x))] else t
  }

  /** `get_user` finds a row exactly when some row carries that `user_id`. */
  lemma GetUserByPrimaryKey(t: Table, u: int)
    requires KeyedByUserId(t)
    ensures GetUser(t, u).None? <==> forall v :: v in t ==> t[v].userId != u
    ensures GetUser(t, u).Some? ==> GetUser(t, u).value.userId == u
  {
  }

  /** `create_user` keeps the key constraint, replaces the whole row (start
      date reset, `v2ray_id` cleared) and leaves every other row alone. */
  lemma InsertedReplacesRow(t: Table, u: int, endDate: int, now: int)
    requires KeyedByUserId(t)
    ensures KeyedByUserId(Inserted(t, u, endDate, now))
    ensures GetUser(Inserted(t, u, endDate, now), u)
         == Some(UserRecord(u, now, Some(endDate), None, now))
    ensures GetUserV2rayId(Inserted(t, u, endDate, now), u) == None
    ensures forall v :: v != u ==> GetUser(Inserted(t, u, endDate, now), v) == GetUser(t, v)
  {
  }

  /** `update_subscription` changes only `end_date` of an existing row and is
      a silent no-op for an absent user. */
  lemma WithEndDateOnlyEndDate(t: Table, u: int, d: Option<int>)
    requires KeyedByUserId(t)
    ensures KeyedByUserId(WithEndDate(t, u, d))
    ensures WithEndDate(t, u, d).Keys == t.Keys
    ensures u in t ==> GetUser(WithEndDate(t, u, d), u) == Some(t[u].(endDate := d))
    ensures u !in t ==> WithEndDate(t, u, d) == t
    ensures forall v :: v != u ==> GetUser(WithEndDate(t, u, d), v) == GetUser(t, v)
  {
  }

  /** `save_user_v2ray_id` changes only `v2ray_id` of an existing row, is a
      no-op for an absent user, and `get_user_v2ray_id` reads it back. */
  lemma WithV2rayIdRoundTrip(t: Table, u: int, x: string)
    requires KeyedByUserId(t)
    ensures KeyedByUserId(WithV2rayId(t, u, x))
    ensures WithV2rayId(t, u, x).Keys == t.Keys
    ensures GetUserV2rayId(WithV2rayId(t, u, x), u) == if u in t then Some(x) else None
    ensures u in t ==> GetUser(WithV2rayId(t, u, x), u) == Some(t[u].(v2rayId := Some(x)))
    ensures forall v :: v != u ==> GetUser(WithV2rayId(t, u, x), v) == GetUser(t, v)
  {
  }

  /** A non-empty set of keys has an element to pick. */
  lemma NonEmptyHasKey(s: set<int>)
    requires s != {}
    ensures exists u :: u in s
  {
    if forall u :: u !in s {
      assert false;
    }
  }

  /** The `users` table. */
  class UserTable {
    var rows: Table

    ghost predicate Valid()
      reads this
    {
      KeyedByUserId(rows)
    }

    /** `init_db` on a fresh database: an empty table. */
    constructor ()
      ensures Valid() && rows == map[]
    {
      rows := map[];
    }

    method CreateUser(u: int, endDate: int, now: int)
      requires Valid()
      modifies this
      ensures Valid()
      ensures rows == Inserted(old(rows), u, endDate, now)
    {
      rows := rows[u := UserRecord(u, now, Some(endDate), None, now)];
    }

    method UpdateSubscription(u: int, newEndDate: Option<int>)
      requires Valid()
      modifies this
      ensures Valid()
      ensures rows == WithEndDate(old(rows), u, newEndDate)
    {
      if u in rows {
        rows := rows[u := rows[u].(endDate := newEndDate)];
      }
    }

    method SaveUserV2rayId(u: int, v2rayId: string)
      requires Valid()
      modifies this
      ensures Valid()
      ensures rows == WithV2rayId(old(rows), u, v2rayId)
    {
      if u in rows {
        rows := rows[u := rows[u].(v2rayId := Some(v2rayId))];
      }
    }

    /** `get_active_users`: every row whose `end_date` is set and later than
        `now`, each once. The SQL query fixes no order, so the rows come in an
        arbitrary order. */
    method GetActiveUsers(now: int) returns (users: seq<UserRecord>)
      requires Valid()
      ensures forall r :: r in users <==> r.userId in rows && rows[r.userId] == r && IsActive(r, now)
      ensures forall i, j :: 0 <= i < j < |users| ==> users[i].userId != users[j].userId
    {
      users := Select((r: UserRecord) => IsActive(r, now));
    }

    /** Every row whose `end_date` is set, whether in the future or not: the
        listing an expiry sweep needs (see `Bot.CheckSubscriptionsCorrected`). */
    method GetSubscribedUsers() returns (users: seq<UserRecord>)
      requires Valid()
      ensures forall r :: r in users <==> r.userId in rows && rows[r.userId] == r && r.endDate.Some?
      ensures forall i, j :: 0 <= i < j < |users| ==> users[i].userId != users[j].userId
    {
      users := Select((r: UserRecord) => r.endDate.Some?);
    }

    /** The loop of `get_active_users` over the rows the query matched. */
    method Select(keep: UserRecord -> bool) returns (users: seq<UserRecord>)
      requires Valid()
      ensures forall r :: r in users <==> r.userId in rows && rows[r.userId] == r && keep(r)
      ensures forall i, j :: 0 <= i < j < |users| ==> users[i].userId != users[j].userId
    {
      var pending := rows.Keys;
      users := [];
      while pending != {}
        invariant pending <= rows.Keys
        invariant forall r :: r in users ==>
          r.userId in rows && r.userId !in pending && rows[r.userId] == r && keep(r)
        invariant forall v :: v in rows && v !in pending && keep(rows[v]) ==> rows[v] in users
        invariant forall i :: 0 <= i < |users| ==> users[i].userId !in pending
        invariant forall i, j :: 0 <= i < j < |users| ==> users[i].userId != users[j].userId
        decreases pending
      {
        NonEmptyHasKey(pending);
        var u :| u in pending;
        if keep(rows[u]) {
          users := users + [rows[u]];
        }
        pending := pending - {u};
      }
    }
  }
}

=== FILE: paypalych_api.dfy ===
/** bot/paypalych_api.py: the mock payment gateway. Payment ids are
    `uuid4()` strings drawn by the caller and passed in. */
module Gateway {

  /** One entry of `_mock_payments`. The price is stored and never computed
      with, so the float is kept as a `real`. */
  datatype Payment = Payment(status: string, userId: int, amount: real, currency: string)

  type Payments = map<string, Payment>

  /** What `create_payment_link` returns. */
  datatype PaymentLink = PaymentLink(paymentId: string, paymentUrl: string)

  /** The statuses that end `poll_payment_status`. */
  predicate IsFinal(status: string) {
    status == "completed" || status == "failed" || status == "cancelled"
  }

  /** `check_payment_status`: the stored status, or "unknown" for an id the
      mock never issued. */
  function CheckPaymentStatus(payments: Payments, paymentId: string): string {
    if paymentId in payments then payments[paymentId].status else "unknown"
  }

  /** The dictionary after `create_payment_link` stored the new payment. */
  function Opened(payments: Payments, paymentId: string, userId: int, amount: real, currency: string): Payments {
    payments[paymentId := Payment("pending", userId, amount, currency)]
  }

  /** The dictionary after `set_mock_payment_status(paymentId, status)`. */
  function WithStatus(payments: Payments, paymentId: string, status: string): Payments {
    if paymentId in payments then payments[paymentId := payments[paymentId].(status := status)]
    else payments
  }

  /** A fresh payment reads back as "pending"; no other payment changes. */
  lemma OpenedIsPending(payments: Payments, paymentId: string, userId: int, amount: real, currency: string)
    ensures CheckPaymentStatus(Opened(payments, paymentId, userId, amount, currency), paymentId) == "pending"
    ensures forall p :: p != paymentId && p in payments ==>
      p in Opened(payments, paymentId, userId, amount, currency)
      && Opened(payments, paymentId, userId, amount, currency)[p] == payments[p]
  {
  }

  /** Setting a status reads back only for a known id; an unknown id stays
      unknown and nothing changes. Only the status field is rewritten. */
  lemma WithStatusRoundTrip(payments: Payments, paymentId: string, status: string)
    ensures CheckPaymentStatus(WithStatus(payments, paymentId, status), paymentId)
         == if paymentId in payments then status else "unknown"
    ensures paymentId !in payments ==> WithStatus(payments, paymentId, status) == payments
    ensures WithStatus(payments, paymentId, status).Keys == payments.Keys
    ensures paymentId in payments ==>
      WithStatus(payments, paymentId, status)[paymentId] == payments[paymentId].(status := status)
    ensures forall p :: p != paymentId && p in payments ==>
      WithStatus(payments, paymentId, status)[p] == payments[p]
  {
  }

  /** The module-level `_mock_payments` dictionary. */
  class MockGateway {
    var payments: Payments

    constructor ()
      ensures payments == map[]
    {
      payments := map[];
    }

    /** `create_payment_link`; the description is only logged by the mock. */
    method CreatePaymentLink(amount: real, currency: string, description: string, userId: int, freshId: string)
      returns (link: PaymentLink)
      modifies this
      ensures payments == Opened(old(payments), freshId, userId, amount, currency)
      ensures link == PaymentLink(freshId, "https://example.com/mock-payment/" + freshId)
    {
      payments := payments[freshId := Payment("pending", userId, amount, currency)];
      link := PaymentLink(freshId, "https://example.com/mock-payment/" + freshId);
    }

    method SetMockPaymentStatus(paymentId: string, status: string)
      modifies this
      ensures payments == WithStatus(old(payments), paymentId, status)
    {
      if paymentId in payments {
        payments := payments[paymentId := payments[paymentId].(status := status)];
      }
    }
  }

  /** The default `max_attempts` of `poll_payment_status`. */
  const DefaultMaxAttempts: int := 10

  /** `poll_payment_status(payment_id, max_attempts)`. `observe(i)` is what the
      i-th `check_payment_status` call reports; other handlers may change the
      payment while the loop sleeps between checks. `checks` counts the calls
      made: the first final status is returned, "pending", "unknown" or any
      other status keeps polling, and "timeout" comes after `max_attempts`
      non-final checks (at once when `max_attempts <= 0`). */
  method PollPaymentStatus(maxAttempts: int, observe: nat -> string) returns (status: string, checks: nat)
    ensures checks <= if maxAttempts < 0 then 0 else maxAttempts
    ensures forall i :: 0 <= i < checks - 1 ==> !IsFinal(observe(i))
    ensures status == "timeout" ==> checks == (if maxAttempts < 0 then 0 else maxAttempts)
    ensures status == "timeout" ==> checks == 0 || !IsFinal(observe(checks - 1))
    ensures status != "timeout" ==> 1 <= checks && status == observe(checks - 1) && IsFinal(status)
  {
    checks := 0;
    while checks < maxAttempts
      invariant checks <= if maxAttempts < 0 then 0 else maxAttempts
      invariant forall i :: 0 <= i < checks ==> !IsFinal(observe(i))
    {
      var current := observe(checks);
      checks := checks + 1;
      if IsFinal(current) {
        return current, checks;
      }
    }
    return "timeout", checks;
  }
}

=== FILE: text.dfy ===
/** Decimal rendering of integers, as Python's f-string `{user_id}` produces it:
    an optional minus sign followed by the digits, no leading zeros. */
module Text {

  function DigitChar(d: nat): (c: char)
    requires d < 10
    ensures '0' <= c <= '9'
  {
    "0123456789"[d]
  }

  /** The digits of `n`, most significant first. */
  function NatToString(n: nat): (s: string)
    ensures 1 <= |s|
    ensures forall i :: 0 <= i < |s| ==> '0' <= s[i] <= '9'
    ensures n < 10 <==> |s| == 1
    decreases n
  {
    if n < 10 then [DigitChar(n)] else NatToString(n / 10) + [DigitChar(n % 10)]
  }

  function IntToString(i: int): (s: string)
    ensures 1 <= |s|
    ensures s[0] == '-' <==> i < 0
  {
    if i < 0 then "-" + NatToString(-i) else NatToString(i)
  }

  lemma DigitCharInjective(a: nat, b: nat)
    requires a < 10 && b < 10 && DigitChar(a) == DigitChar(b)
    ensures a == b
  {
  }

  /** Two numbers with the same rendering are the same number. */
  lemma {:induction false} NatToStringInjective(a: nat, b: nat)
    requires NatToString(a) == NatToString(b)
    ensures a == b
    decreases a
  {
    var s := NatToString(a);
    if a < 10 || b < 10 {
      if a < 10 && b < 10 {
        DigitCharInjective(a, b);
      }
    } else {
      assert s[..|s| - 1] == NatToString(a / 10) == NatToString(b / 10);
      NatToStringInjective(a / 10, b / 10);
      DigitCharInjective(a % 10, b % 10);
    }
  }

  lemma IntToStringInjective(a: int, b: int)
    requires IntToString(a) == IntToString(b)
    ensures a == b
  {
    var s := IntToString(a);
    if a < 0 {
      assert s[1..] == NatToString(-a) == NatToString(-b);
      NatToStringInjective(-a, -b);
    } else {
      NatToStringInjective(a, b);
    }
  }
}

=== FILE: vpn_manager.dfy ===
/** vpn/vpn_manager.py: the client list `inbounds[0].settings.clients` of the
    v2ray configuration document, and the per-user artefacts built from the
    `users` table (client config file, `vless://` URL). */
module Vpn {
  import opened Wrappers
  import Text
  import Db

  /** One entry of `inbounds[0].settings.clients`. */
  datatype Client = Client(id: string, flow: string, level: int, email: string)

  const Flow: string := "xtls-rprx-vision"
  const ServerPort: string := "443"

  /** The label `user_{user_id}@vpn.example.com` given to a user's clients. */
  function Email(u: int): string {
    "user_" + Text.IntToString(u) + "@vpn.example.com"
  }

  /** The client `create_v2ray_user(u)` builds around the UUID it draws. */
  function NewClient(u: int, uuid: string): Client {
    Client(uuid, Flow, 0, Email(u))
  }

  /** `any(client['id'] == uuid for client in clients)`. */
  predicate HasClientId(clients: seq<Client>, id: string) {
    exists i :: 0 <= i < |clients| && clients[i].id == id
  }

  /** The client list after `create_v2ray_user(u)` drew `uuid`: the new client
      is appended unless an entry already carries that very UUID. */
  function AfterCreate(clients: seq<Client>, u: int, uuid: string): seq<Client> {
    if HasClientId(clients, uuid) then clients else clients + [NewClient(u, uuid)]
  }

  /** `[client for client in clients if client['id'] != id]`. */
  function WithoutId(clients: seq<Client>, id: string): seq<Client> {
    if clients == [] then []
    else (if clients[0].id != id then [clients[0]] else []) + WithoutId(clients[1..], id)
  }

  /** The client list after `remove_v2ray_user(u)`: unchanged when the user
      has no stored UUID (`if not user_uuid`: NULL or empty), otherwise every
      client with that UUID is filtered out. */
  function AfterRemove(clients: seq<Client>, t: Db.Table, u: int): seq<Client> {
    match Db.GetUserV2rayId(t, u)
    case None => clients
    case Some(x) => if x == "" then clients else WithoutId(clients, x)
  }

  /** How many clients carry the label `email`. */
  function CountEmail(clients: seq<Client>, email: string): nat {
    if clients == [] then 0
    else (if clients[0].email == email then 1 else 0) + CountEmail(clients[1..], email)
  }

  /** Distinct users get distinct labels. */
  lemma EmailInjective(a: int, b: int)
    requires Email(a) == Email(b)
    ensures a == b
  {
    var ea, eb := Email(a), Email(b);
    assert ea[5..|ea| - 16] == Text.IntToString(a);
    assert eb[5..|eb| - 16] == Text.IntToString(b);
    Text.IntToStringInjective(a, b);
  }

  lemma {:induction false} CountEmailAppend(clients: seq<Client>, c: Client, email: string)
    ensures CountEmail(clients + [c], email)
         == CountEmail(clients, email) + (if c.email == email then 1 else 0)
  {
    if clients != [] {
      assert (clients + [c])[1..] == clients[1..] + [c];
      CountEmailAppend(clients[1..], c, email);
    }
  }

  /** With a UUID not yet in the list, `create_v2ray_user` appends exactly one
      client (the UUID as id, flow xtls-rprx-vision, level 0, the user's label)
      behind the earlier clients, which stay unchanged and in order. */
  lemma AfterCreateAppendsOne(clients: seq<Client>, u: int, uuid: string)
    requires !HasClientId(clients, uuid)
    ensures |AfterCreate(clients, u, uuid)| == |clients| + 1
    ensures AfterCreate(clients, u, uuid)[..|clients|] == clients
    ensures AfterCreate(clients, u, uuid)[|clients|]
         == Client(uuid, "xtls-rprx-vision", 0, "user_" + Text.IntToString(u) + "@vpn.example.com")
  {
  }

  /** The only duplicate check is on the freshly drawn UUID: nothing looks at
      the label, so a user who already has clients gets one more, while every
      other user's count stays put. */
  lemma AfterCreateNoDedupByUser(clients: seq<Client>, u: int, uuid: string)
    requires !HasClientId(clients, uuid)
    ensures CountEmail(AfterCreate(clients, u, uuid), Email(u)) == CountEmail(clients, Email(u)) + 1
    ensures forall v :: v != u ==>
      CountEmail(AfterCreate(clients, u, uuid), Email(v)) == CountEmail(clients, Email(v))
  {
    CountEmailAppend(clients, NewClient(u, uuid), Email(u));
    forall v | v != u
      ensures CountEmail(AfterCreate(clients, u, uuid), Email(v)) == CountEmail(clients, Email(v))
    {
      CountEmailAppend(clients, NewClient(u, uuid), Email(v));
      if Email(u) == Email(v) {
        EmailInjective(u, v);
      }
    }
  }

  /** The filter keeps exactly the clients whose id differs. */
  lemma {:induction false} WithoutIdMembers(clients: seq<Client>, id: string)
    ensures forall c :: c in WithoutId(clients, id) <==> c in clients && c.id != id
  {
    if clients != [] {
      WithoutIdMembers(clients[1..], id);
      assert clients == [clients[0]] + clients[1..];
    }
  }

  /** The filter works piecewise, so the survivors keep their relative order. */
  lemma {:induction false} WithoutIdAppend(a: seq<Client>, b: seq<Client>, id: string)
    ensures WithoutId(a + b, id) == WithoutId(a, id) + WithoutId(b, id)
  {
    if a != [] {
      assert (a + b)[1..] == a[1..] + b;
      WithoutIdAppend(a[1..], b, id);
    } else {
      assert a + b == b;
    }
  }

  /** Filtering an id that no client carries changes nothing. */
  lemma {:induction false} WithoutIdAbsent(clients: seq<Client>, id: string)
    requires !HasClientId(clients, id)
    ensures WithoutId(clients, id) == clients
  {
    if clients != [] {
      forall i | 0 <= i < |clients| - 1
        ensures clients[1..][i].id != id
      {
        assert clients[1..][i] == clients[i + 1];
      }
      WithoutIdAbsent(clients[1..], id);
      assert clients == [clients[0]] + clients[1..];
    }
  }

  /** After the filter no client has the id, so filtering again is a no-op. */
  lemma WithoutIdIdempotent(clients: seq<Client>, id: string)
    ensures !HasClientId(WithoutId(clients, id), id)
    ensures WithoutId(WithoutId(clients, id), id) == WithoutId(clients, id)
  {
    var r := WithoutId(clients, id);
    WithoutIdMembers(clients, id);
    forall i | 0 <= i < |r|
      ensures r[i].id != id
    {
      assert r[i] in r;
    }
    WithoutIdAbsent(r, id);
  }

  /** `remove_v2ray_user(u)`: without a stored UUID the list is untouched;
      with one, no client keeps that id, every other client is kept, and a
      repeated call leaves the list as it is. */
  lemma AfterRemoveRevokes(clients: seq<Client>, t: Db.Table, u: int)
    ensures Db.GetUserV2rayId(t, u).None? || Db.GetUserV2rayId(t, u).value == "" ==> AfterRemove(clients, t, u) == clients
    ensures Db.GetUserV2rayId(t, u).Some? && Db.GetUserV2rayId(t, u).value != "" ==>
      (var x := Db.GetUserV2rayId(t, u).value;
       && !HasClientId(AfterRemove(clients, t, u), x)
       && (forall c :: c in clients && c.id != x ==> c in AfterRemove(clients, t, u)))
    ensures AfterRemove(AfterRemove(clients, t, u), t, u) == AfterRemove(clients, t, u)
  {
    var id := Db.GetUserV2rayId(t, u);
    if id.Some? && id.value != "" {
      WithoutIdMembers(clients, id.value);
      WithoutIdIdempotent(clients, id.value);
    }
  }

  /** The JSON object `generate_v2ray_config` writes for a user; field
      `headerType` is the source's key "type". */
  datatype ClientConfig = ClientConfig(
    remarks: string, v: string, ps: string, add: string, port: string, id: string,
    aid: string, net: string, headerType: string, host: string, path: string, tls: string)

  /** The returned pair: where the file goes and what it holds. */
  datatype ConfigFile = ConfigFile(filePath: string, config: ClientConfig)

  /** The two `ValueError`s raised before any artefact is built. */
  datatype ConfigError = UserNotFound(userId: int) | UuidNotFound(userId: int)

  /** The guard shared by `generate_v2ray_config` and `generate_v2ray_qr`:
      the user's row must exist and carry a non-empty UUID. */
  function StoredUuid(t: Db.Table, u: int): (r: Result<string, ConfigError>)
    ensures r.Ok? <==> Db.GetUserV2rayId(t, u).Some? && Db.GetUserV2rayId(t, u).value != ""
    ensures r.Ok? ==> Db.GetUserV2rayId(t, u) == Some(r.value)
    ensures u !in t ==> r == Err(UserNotFound(u))
    ensures u in t && r.Err? ==> r == Err(UuidNotFound(u))
  {
    if u !in t then Err(UserNotFound(u))
    else match Db.GetUserV2rayId(t, u)
      case None => Err(UuidNotFound(u))
      case Some(x) => if x == "" then Err(UuidNotFound(u)) else Ok(x)
  }

  /** `generate_v2ray_config(u)` with the server address `serverIp`
      (VPN_SERVER_IP); writing the file is left out. */
  function GenerateV2rayConfig(t: Db.Table, u: int, serverIp: string): (r: Result<ConfigFile, ConfigError>)
    ensures r.Err? <==> StoredUuid(t, u).Err?
    ensures r.Err? ==> r.error == StoredUuid(t, u).error
    ensures r.Ok? ==>
      && r.value.config.id == StoredUuid(t, u).value
      && r.value.config.add == serverIp
      && r.value.config.port == "443"
      && r.value.filePath == "configs/user_" + Text.IntToString(u) + "_config.json"
  {
    match StoredUuid(t, u)
    case Err(e) => Err(e)
    case Ok(uuid) =>
      var name := Text.IntToString(u);
      Ok(ConfigFile(
        "configs/user_" + name + "_config.json",
        ClientConfig("VPN Config for User " + name, "2", "VPN for User " + name, serverIp, ServerPort,
                     uuid, "0", "tcp", "none", "", "", "tls")))
  }

  /** The `vless_url` of `generate_v2ray_qr(u)`; rendering the QR image is
      left out. */
  function VlessUrl(t: Db.Table, u: int, serverIp: string): (r: Result<string, ConfigError>)
    ensures r.Err? <==> StoredUuid(t, u).Err?
    ensures r.Ok? ==>
      r.value == "vless://" + StoredUuid(t, u).value + "@" + serverIp
                 + ":443?security=tls&type=tcp#VPN-User-" + Text.IntToString(u)
  {
    match StoredUuid(t, u)
    case Err(e) => Err(e)
    case Ok(uuid) =>
      Ok("vless://" + uuid + "@" + serverIp + ":" + ServerPort + "?security=tls&type=tcp#VPN-User-"
         + Text.IntToString(u))
  }

  /** The URL and the config file agree: both are produced or both fail with
      the same error, and the URL names the config's UUID, address, port,
      security and network. */
  lemma VlessUrlMatchesConfig(t: Db.Table, u: int, serverIp: string)
    ensures VlessUrl(t, u, serverIp).Err? <==> GenerateV2rayConfig(t, u, serverIp).Err?
    ensures VlessUrl(t, u, serverIp).Err? ==>
      VlessUrl(t, u, serverIp).error == GenerateV2rayConfig(t, u, serverIp).error
    ensures GenerateV2rayConfig(t, u, serverIp).Ok? ==>
      (var c := GenerateV2rayConfig(t, u, serverIp).value.config;
       VlessUrl(t, u, serverIp).value
         == "vless://" + c.id + "@" + c.add + ":" + c.port + "?security=" + c.tls + "&type=" + c.net
            + "#VPN-User-" + Text.IntToString(u))
  {
    var g := StoredUuid(t, u);
    if g.Ok? {
      var c := GenerateV2rayConfig(t, u, serverIp).value.config;
      var name := Text.IntToString(u);
      assert c == ClientConfig("VPN Config for User " + name, "2", "VPN for User " + name, serverIp, ServerPort,
                               g.value, "0", "tcp", "none", "", "", "tls");
      assert "?security=" + c.tls + "&type=" + c.net + "#VPN-User-" == "?security=tls&type=tcp#VPN-User-";
      calc {
        "vless://" + c.id + "@" + c.add + ":" + c.port + "?security=" + c.tls + "&type=" + c.net + "#VPN-User-" + name;
        "vless://" + g.value + "@" + serverIp + ":" + ServerPort + ("?security=" + c.tls + "&type=" + c.net + "#VPN-User-") + name;
        VlessUrl(t, u, serverIp).value;
      }
    }
  }

  /** The document's `inbounds[0].settings.clients`; the rest of the document
      is never touched by these operations and is not modelled. */
  class Directory {
    var clients: seq<Client>

    /** The configuration template: no clients. */
    constructor ()
      ensures clients == []
    {
      clients := [];
    }

    /** `create_v2ray_user(u)`, with the drawn `uuid4()` passed as `uuid`:
        append the client (unless that UUID is already listed), then store the
        UUID as the user's `v2ray_id`, overwriting any earlier one. */
    method CreateV2rayUser(db: Db.UserTable, u: int, uuid: string)
      requires db.Valid()
      modifies this, db
      ensures db.Valid()
      ensures clients == AfterCreate(old(clients), u, uuid)
      ensures db.rows == Db.WithV2rayId(old(db.rows), u, uuid)
    {
      var newClient := NewClient(u, uuid);
      if !HasClientId(clients, uuid) {
        clients := clients + [newClient];
      }
      db.SaveUserV2rayId(u, uuid);
    }

    /** `remove_v2ray_user(u)`: the stored UUID is looked up, not cleared. */
    method RemoveV2rayUser(db: Db.UserTable, u: int)
      modifies this
      ensures clients == AfterRemove(old(clients), db.rows, u)
    {
      var uuid := Db.GetUserV2rayId(db.rows, u);
      if uuid.None? || uuid.value == "" {
        return;
      }
      clients := WithoutId(clients, uuid.value);
    }
  }
}

=== FILE: wrappers.dfy ===
/** Option and Result, the two failure-carrying shapes the model needs:
    Python's `None` and a raised `ValueError`. */
module Wrappers {

  datatype Option<+T> = None | Some(value: T)

  datatype Result<+R, +E> = Ok(value: R) | Err(error: E)
}
